=== FILE: README.md ===
# GrainBroker CRUD core in Dafny

A model of the request-handling core of the GrainBroker API, a backend for a
grain brokerage: three entity services (`CustomerService`, `SupplierService`,
`OrderService`) over an abstract store, and the three controllers that turn
the services' answers into HTTP responses.

- `base.dfy` (`Base`): nullable references (`Option`), `int32`, `int64`, `Guid` (128 bits), `TimeSpan`.
- `models.dfy` (`Models`): `Customer`, `Supplier`, `Order`, without navigation properties.
- `text.dfy` (`Text`): `char.IsWhiteSpace`, `string.IsNullOrWhiteSpace`, and an independent `Trim`
  that the blank check is proved against (the services themselves never trim).
- `exceptions.dfy` (`Exceptions`): the exceptions the code throws or catches, the `Message`
  the .NET runtime builds for an `ArgumentException`, and `Outcome` (returned or threw).
- `persistence.dfy` (`Persistence`): one table as `map<Guid, T>`, with find, add-and-save
  (key generation for `Guid.Empty`, refusal of a used key), save of a modified row (fails with a
  concurrency exception when no row has that key, or when the `conflict` oracle says a concurrent
  writer interfered), remove-and-save, and listing.
- `customer_service.dfy`, `supplier_service.dfy`, `order_service.dfy`: each service operation as a
  pure function from the table (and its inputs) to the table afterwards and the outcome.
- `http.dfy` (`Http`): the `Response` kinds 200/201/204/400/404 and "exception escapes".
- `customers_controller.dfy`, `suppliers_controller.dfy`, `orders_controller.dfy`: every action
  twice, once as a total map from the service's answer to a response (`GetResult`, `PutResult`,
  `PostResult`, `DeleteResult`) and once composed with the service model.

Behaviours of the code worth noting:

- Customer and supplier updates do not validate `Location`; only create does.
- An update with a mismatched id returns `false`, the same value as "not found"; there is no
  separate mismatch outcome.
- Only the orders controller catches `ArgumentException` on PUT.
- The controller test base expects a bare `BadRequestResult` for a PUT with mismatched ids
  (`GrainBrokerAPITests/GrainBrokerControllerTestBase.cs:145-156`). The controllers return
  `BadRequest("ID mismatch")`, a 400 with a text body. The model follows the controllers.
- The `Location` column of customers and suppliers is NOT NULL
  (`GrainBrokerAPI/Migrations/20251124225726_Initial.cs:19`, `:31`). Update does not check
  `Location`, so an update carrying a null one reaches the store, which refuses it with a
  `DbUpdateException`. Neither the service nor the controller catches that, so the request fails.
  The model passes "the row fits the columns" to the save for this.

Suppliers has the same columns as Customers: `Id` and `Location`
(`GrainBrokerAPI/Migrations/20251124225726_Initial.cs:26-36`). `Supplier` is modelled with that
shape.

## Model

| member | source | states |
|---|---|---|
| Text.AllWhiteSpace | GrainBrokerAPI/Services/CustomerService.cs:33-34 | the character scan is true exactly when every character of the string is white space |
| Text.IsNullOrWhiteSpace | GrainBrokerAPI/Services/CustomerService.cs:33-34 | null is blank; a string is blank exactly when every character of it is white space |
| Text.TrimEmptyIffNullOrWhiteSpace | GrainBrokerAPI/Services/SupplierService.cs:36-37 | `Trim(s) == ""` holds exactly when the check `IsNullOrWhiteSpace` calls `s` blank |
| Exceptions.Exception.Message | GrainBrokerAPI/Controllers/CustomersController.cs:134-137 | the message of an argument exception starts with the rule text given to its constructor (for a null argument, with "Value cannot be null.") and ends by naming the parameter |
| Persistence.Find | GrainBrokerAPI/Services/CustomerService.cs:23-26 | a lookup by primary key gives null exactly for an absent key and otherwise the stored row |
| Persistence.Add | GrainBrokerAPI/Services/CustomerService.cs:36-37 | an insert succeeds exactly when the key is unused, then adds that one row and keeps every other row; a used key fails with nothing written |
| Persistence.SaveModified | GrainBrokerAPITests/Services/CustomerServiceTests.cs:169-182 | saving a modified row fails with a concurrency exception when its key is absent (or a conflict is reported), fails with a store error when the row breaks a NOT NULL column, and otherwise replaces only that row |
| Persistence.Remove | GrainBrokerAPI/Services/CustomerService.cs:72-73 | removal drops exactly the given key and keeps every other row |
| Persistence.ToList | GrainBrokerAPI/Services/CustomerService.cs:18-21 | the listing has as many entries as the table has rows, each entry is the row under a distinct key, and every stored row appears |
| CustomerService.GetAllCustomers | GrainBrokerAPI/Services/CustomerService.cs:18-21 | every stored customer is listed and nothing else; when rows are keyed by their own ids no customer is listed twice |
| CustomerService.GetCustomerById | GrainBrokerAPI/Services/CustomerService.cs:23-26 | an unknown id gives null and never an exception; a known id gives the row, which carries that id |
| CustomerService.CustomerExists | GrainBrokerAPI/Services/CustomerService.cs:78-81 | when rows are keyed by their own ids, existence agrees with membership |
| CustomerService.CreateCustomer | GrainBrokerAPI/Services/CustomerService.cs:28-40 | null fails with a null-argument error, a blank Location with "Location is required", both writing nothing; otherwise the customer is stored under its own id, or under the generated key when its id is empty, and returned, and a lookup finds it; a valid customer whose key is already used throws the store's error and writes nothing |
| CustomerService.UpdateCustomer | GrainBrokerAPI/Services/CustomerService.cs:42-63 | null throws; a mismatched id gives false with no write; true exactly when the id is stored, the Location is non-null and no conflict occurs, after which the row is the given record; a null Location on a stored row throws the store's error; a conflict gives false for an absent row and rethrows for a present one |
| CustomerService.DeleteCustomer | GrainBrokerAPI/Services/CustomerService.cs:65-76 | the result is true exactly when the id was stored; afterwards the id is absent and every other row is unchanged |
| CustomerService.LocationCheckedOnlyOnCreate | GrainBrokerAPI/Services/CustomerService.cs:28-56 | a customer with a blank Location is refused by create; update of an existing row writes an empty or white-space Location as-is, and a null one reaches the store and fails there |
| CustomerService.CreateThenDeleteRestores | GrainBrokerAPI/Services/CustomerService.cs:28-76 | deleting the row a create just inserted succeeds and restores the original table |
| CustomerService.UpdateThenGet | GrainBrokerAPI/Services/CustomerService.cs:42-56 | after a successful update, a lookup returns the new record field for field |
| SupplierService.GetAllSuppliers | GrainBrokerAPI/Services/SupplierService.cs:21-24 | every stored supplier is listed and nothing else; when rows are keyed by their own ids no supplier is listed twice |
| SupplierService.GetSupplierById | GrainBrokerAPI/Services/SupplierService.cs:26-29 | an unknown id gives null and never an exception; a known id gives the row, which carries that id |
| SupplierService.SupplierExists | GrainBrokerAPI/Services/SupplierService.cs:81-84 | when rows are keyed by their own ids, existence agrees with membership |
| SupplierService.CreateSupplier | GrainBrokerAPI/Services/SupplierService.cs:31-43 | null fails with a null-argument error, a blank Location with "Location is required", both writing nothing; otherwise the supplier is stored under its own id, or under the generated key when its id is empty, and returned, and a lookup finds it; a valid supplier whose key is already used throws the store's error and writes nothing |
| SupplierService.UpdateSupplier | GrainBrokerAPI/Services/SupplierService.cs:45-66 | null throws; a mismatched id gives false with no write; true exactly when the id is stored, the Location is non-null and no conflict occurs, after which the row is the given record; a null Location on a stored row throws the store's error; a conflict gives false for an absent row and rethrows for a present one |
| SupplierService.DeleteSupplier | GrainBrokerAPI/Services/SupplierService.cs:68-79 | the result is true exactly when the id was stored; afterwards the id is absent and every other row is unchanged |
| SupplierService.LocationCheckedOnlyOnCreate | GrainBrokerAPI/Services/SupplierService.cs:31-58 | a supplier with a blank Location is refused by create; update of an existing row writes an empty or white-space Location as-is, and a null one reaches the store and fails there |
| SupplierService.CreateThenDeleteRestores | GrainBrokerAPI/Services/SupplierService.cs:31-79 | deleting the row a create just inserted succeeds and restores the original table |
| SupplierService.UpdateThenGet | GrainBrokerAPI/Services/SupplierService.cs:45-58 | after a successful update, a lookup returns the new record field for field |
| OrderService.FirstBroken | GrainBrokerAPI/Services/OrderService.cs:37-44 | reference definition of the rule order: the first rule in the list the order breaks, with every earlier rule holding; none exactly when all hold |
| OrderService.Validate | GrainBrokerAPI/Services/OrderService.cs:36-44 | the three checks accept exactly the valid orders, and otherwise report the message of the first broken rule in the order requested amount, supplied amount, cost |
| OrderService.GetAllOrders | GrainBrokerAPI/Services/OrderService.cs:21-24 | every stored order is listed and nothing else; when rows are keyed by their own ids no order is listed twice |
| OrderService.GetOrderById | GrainBrokerAPI/Services/OrderService.cs:26-29 | an unknown id gives null and never an exception; a known id gives the row |
| OrderService.OrderExists | GrainBrokerAPI/Services/OrderService.cs:98-101 | when rows are keyed by their own ids, existence agrees with membership |
| OrderService.CreateOrder | GrainBrokerAPI/Services/OrderService.cs:31-50 | null fails with a null-argument error and an invalid order with its first broken rule, both writing nothing; a valid order is stored under its own id, or under the generated key when its id is empty, and returned unchanged apart from that key; the order service's own writes keep every stored order valid; a valid order whose key is already used throws the store's error and writes nothing |
| OrderService.UpdateOrder | GrainBrokerAPI/Services/OrderService.cs:52-83 | a mismatched id gives false before any rule is checked; an invalid order throws its rule; true exactly when valid, stored and saved, replacing the whole record; the order service's own writes keep every stored order valid; a conflict gives false for an absent row and rethrows for a present one |
| OrderService.DeleteOrder | GrainBrokerAPI/Services/OrderService.cs:85-96 | the result is true exactly when the id was stored; afterwards the id is absent and every other row is unchanged |
| OrderService.EarliestRuleReported | GrainBrokerAPI/Services/OrderService.cs:37-44 | when several rules are broken the earliest one's message is reported |
| OrderService.MismatchBeforeValidation | GrainBrokerAPI/Services/OrderService.cs:57-68 | an invalid order with a mismatched id makes update return false, where create throws the rule |
| OrderService.CreateThenDeleteRestores | GrainBrokerAPI/Services/OrderService.cs:31-96 | deleting the row a create just inserted succeeds and restores the original table |
| OrderService.UpdateThenGet | GrainBrokerAPI/Services/OrderService.cs:52-76 | after a successful update, a lookup returns the new record field for field |
| CustomersController.GetCustomers | GrainBrokerAPI/Controllers/CustomersController.cs:25-29 | 200 with every stored customer and nothing else; when rows are keyed by their own ids no customer is listed twice |
| CustomersController.GetResult | GrainBrokerAPI/Controllers/CustomersController.cs:37-42 | null is exactly 404 NotFound, a customer is exactly 200 Ok with that customer and nothing else |
| CustomersController.GetCustomer | GrainBrokerAPI/Controllers/CustomersController.cs:33-43 | 404 exactly for an unknown id, otherwise 200 with the stored customer |
| CustomersController.PutResult | GrainBrokerAPI/Controllers/CustomersController.cs:71-90 | true is 204, false is 404, a concurrency exception is 404 only when the re-check finds no row; every other exception escapes |
| CustomersController.PutCustomer | GrainBrokerAPI/Controllers/CustomersController.cs:62-91 | 400 "ID mismatch" exactly on differing ids with no write; 204 exactly when the row is stored, its Location is non-null and no conflict occurs; 404 exactly when the ids agree and the row is absent, never on a mismatch; a null Location on a stored row escapes as the store's error; on a keyed table a conflict on a stored row escapes as the concurrency exception |
| CustomersController.PostResult | GrainBrokerAPI/Controllers/CustomersController.cs:129-137 | a created customer is 201 routed to its own id; every argument exception, the null one included, is 400 with its message; every other exception escapes |
| CustomersController.PostCustomer | GrainBrokerAPI/Controllers/CustomersController.cs:127-138 | 201 exactly for a non-null customer with a Location and an unused key; the route id is the client's id, or the generated one when that is empty; only that row is added, and GET of the route id then answers 200 with it; null and blank Location are 400 with the service's message and write nothing; a valid customer with a used key lets the store's error escape |
| CustomersController.DeleteResult | GrainBrokerAPI/Controllers/CustomersController.cs:146-151 | false is 404, true is 204 |
| CustomersController.DeleteCustomer | GrainBrokerAPI/Controllers/CustomersController.cs:142-152 | 204 exactly when the id was stored, 404 otherwise; a GET afterwards is 404 |
| CustomersController.ConcurrencyCatchRethrows | GrainBrokerAPI/Controllers/CustomersController.cs:80-89 | within one sequential request a concurrency exception from the service always reaches the rethrow |
| OrdersController.GetGrainOrders | GrainBrokerAPI/Controllers/OrdersController.cs:25-29 | 200 with every stored order and nothing else; when rows are keyed by their own ids no order is listed twice |
| OrdersController.GetResult | GrainBrokerAPI/Controllers/OrdersController.cs:37-42 | null is exactly 404 NotFound, an order is exactly 200 Ok with that order and nothing else |
| OrdersController.GetOrder | GrainBrokerAPI/Controllers/OrdersController.cs:33-43 | 404 exactly for an unknown id, otherwise 200 with the stored order |
| OrdersController.PutResult | GrainBrokerAPI/Controllers/OrdersController.cs:77-100 | true is 204, false is 404, an argument exception is 400 with its message, a concurrency exception is 404 only when the re-check finds no row; anything else escapes |
| OrdersController.PutOrder | GrainBrokerAPI/Controllers/OrdersController.cs:68-101 | 400 exactly on differing ids or a broken rule (with that rule's message); 204 exactly when valid, stored and saved; 404 exactly when valid with agreeing ids and absent; on a keyed table a conflict on a valid stored row escapes as the concurrency exception |
| OrdersController.PostResult | GrainBrokerAPI/Controllers/OrdersController.cs:127-135 | a created order is 201 routed to its own id; every argument exception is 400 with its message; every other exception escapes |
| OrdersController.PostOrder | GrainBrokerAPI/Controllers/OrdersController.cs:125-136 | 201 exactly for a valid order with an unused key; the route id is the client's id, or the generated one when that is empty; only that row is added, and GET of the route id then answers 200 with it; null and invalid orders are 400 with the service's message and write nothing; a valid order with a used key lets the store's error escape |
| OrdersController.DeleteResult | GrainBrokerAPI/Controllers/OrdersController.cs:144-149 | false is 404, true is 204 |
| OrdersController.DeleteOrder | GrainBrokerAPI/Controllers/OrdersController.cs:140-150 | 204 exactly when the id was stored, 404 otherwise; a GET afterwards is 404 |
| OrdersController.ConcurrencyCatchRethrows | GrainBrokerAPI/Controllers/OrdersController.cs:90-100 | within one sequential request a concurrency exception from the service always reaches the rethrow |
| SuppliersController.GetSuppliers | GrainBrokerAPI/Controllers/SuppliersController.cs:25-29 | 200 with every stored supplier and nothing else; when rows are keyed by their own ids no supplier is listed twice |
| SuppliersController.GetResult | GrainBrokerAPI/Controllers/SuppliersController.cs:37-42 | null is exactly 404 NotFound, a supplier is exactly 200 Ok with that supplier and nothing else |
| SuppliersController.GetSupplier | GrainBrokerAPI/Controllers/SuppliersController.cs:33-43 | 404 exactly for an unknown id, otherwise 200 with the stored supplier |
| SuppliersController.PutResult | GrainBrokerAPI/Controllers/SuppliersController.cs:71-90 | true is 204, false is 404, a concurrency exception is 404 only when the re-check finds no row; every other exception escapes |
| SuppliersController.PutSupplier | GrainBrokerAPI/Controllers/SuppliersController.cs:62-91 | 400 "ID mismatch" exactly on differing ids with no write; 204 exactly when the row is stored, its Location is non-null and no conflict occurs; 404 exactly when the ids agree and the row is absent; a null Location on a stored row escapes as the store's error; on a keyed table a conflict on a stored row escapes as the concurrency exception |
| SuppliersController.PostResult | GrainBrokerAPI/Controllers/SuppliersController.cs:110-118 | a created supplier is 201 routed to its own id; every argument exception is 400 with its message; every other exception escapes |
| SuppliersController.PostSupplier | GrainBrokerAPI/Controllers/SuppliersController.cs:108-119 | 201 exactly for a non-null supplier with a Location and an unused key; the route id is the client's id, or the generated one when that is empty; only that row is added, and GET of the route id then answers 200 with it; null and blank Location are 400 and write nothing; a valid supplier with a used key lets the store's error escape |
| SuppliersController.DeleteResult | GrainBrokerAPI/Controllers/SuppliersController.cs:127-132 | false is 404, true is 204 |
| SuppliersController.DeleteSupplier | GrainBrokerAPI/Controllers/SuppliersController.cs:123-133 | 204 exactly when the id was stored, 404 otherwise; a GET afterwards is 404 |
| SuppliersController.ConcurrencyCatchRethrows | GrainBrokerAPI/Controllers/SuppliersController.cs:80-89 | within one sequential request a concurrency exception from the service always reaches the rethrow |

## Left out

- EF Core change tracking: the context is a table per entity plus the save outcomes above. Tracked-entity identity resolution and navigation-property fix-up are not modelled.
- Async/await and real concurrency: every call runs alone against one table. A concurrent writer appears only as the `conflict` input of an update's save. The re-checks read the same table as the save, so a row deleted between the service's re-check and the controller's is not modelled.
- Referential integrity and cascade delete (`GrainBrokerAPI/Migrations/20251124225726_Initial.cs:54-65`): enforced by SQL Server, never checked by the services. Orders are stored whatever their `CustomerId` and `SupplierId`, and deleting a customer or supplier leaves the orders table alone.
- The 200-character `Location` limit and the decimal(18,2) column type: column constraints of the store. `CostOfDelivery` is an exact `real`, so its scale and range are not bounded.
- Nested orders on create: `Customer.Orders` and `Supplier.OrdersFulfilled` are not modelled. `Add` of a customer or supplier (`GrainBrokerAPI/Services/CustomerService.cs:36`) also inserts the orders a client nests in the body, and those skip the order rules of `GrainBrokerAPI/Services/OrderService.cs:37-44`. The order invariant `AllValid` therefore covers only what the order service itself writes.
- Store failures other than a used key on insert, a concurrency failure on an update and a null `Location` on an update, such as a failed delete or a lost connection: the model has no outcome for them.
- Serialisation: the text forms of `Guid` and `TimeSpan`, JSON binding, and the URL that `CreatedAtAction` builds. A 201 carries only the route id.
- Framework wiring: routing attributes, `[ApiController]` automatic 400s from model binding and validation (with nullable reference types on, a body whose `Location` is null is answered 400 before `PutCustomer` or `PutSupplier` runs), dependency injection, logging, and the constructors' null guards. The controller functions model each action as called directly, so a null `Location` reaching the store there is what the action itself does.
- Exceptions.Exception.Message: the text follows the .NET runtime's format for `ArgumentException` and `ArgumentNullException`. That format belongs to the runtime, not to this repository.
- Persistence.ToList: lists rows in an unspecified order, as the store does, so the contract says nothing about order.

=== FILE: base.dfy ===
/** Value types shared by every part of the model: nullable references,
    the fixed-width integers of the entity classes and the 128-bit Guid. */
module Base {

  /** A C# reference that may be null. */
  datatype Option<+T> = None | Some(value: T)

  /** C# `int`. */
  newtype int32 = x: int | -0x8000_0000 <= x < 0x8000_0000

  /** C# `long`. */
  newtype int64 = x: int | -0x8000_0000_0000_0000 <= x < 0x8000_0000_0000_0000

  /** A `System.Guid`: an opaque 128-bit identifier compared only for equality. */
  datatype Guid = Guid(bits: bv128)

  /** `Guid.Empty`, the value of an `Id` the caller left unset. */
  const EmptyGuid: Guid := Guid(0)

  /** A `System.TimeSpan`, carried through the services unchanged. */
  datatype TimeSpan = TimeSpan(ticks: int64)
}

=== FILE: customer_service.dfy ===
/** `CustomerService`: the six operations over the Customers table. */
module CustomerService {
  import opened Base
  import opened Models
  import opened Text
  import opened Exceptions
  import opened Persistence

  type Customers = Table<Customer>

  const LocationRequired := "Location is required"

  /** Every row is stored under its own `Id`, as EF Core's key mapping keeps it. */
  ghost predicate Keyed(t: Customers) {
    forall k :: k in t ==> t[k].id == k
  }

  /** `GetAllCustomersAsync`. */
  method GetAllCustomers(t: Customers) returns (rows: seq<Customer>)
    ensures |rows| == |t|
    ensures forall k :: k in t ==> t[k] in rows
    ensures forall i :: 0 <= i < |rows| ==> rows[i] in t.Values
    ensures Keyed(t) ==> forall i, j :: 0 <= i < j < |rows| ==> rows[i].id != rows[j].id
  {
    ghost var keys;
    keys, rows := ToList(t);
    forall k | k in t
      ensures t[k] in rows
    {
      var i :| 0 <= i < |keys| && keys[i] == k;
      assert rows[i] == t[k];
    }
  }

  /** `GetCustomerByIdAsync`: absent ids give null, never an exception. */
  function GetCustomerById(t: Customers, id: Guid): (r: Option<Customer>)
    ensures r.None? <==> id !in t
    ensures r.Some? ==> r.value == t[id]
    ensures r.Some? && Keyed(t) ==> r.value.id == id
  {
    Find(t, id)
  }

  /** `CustomerExistsAsync`: whether some row carries this `Id`. */
  function CustomerExists(t: Customers, id: Guid): (r: bool)
    ensures Keyed(t) ==> (r <==> id in t)
  {
    exists k | k in t :: t[k].id == id
  }

  /** `CreateCustomerAsync`: a null check, the Location rule, then the insert. */
  function CreateCustomer(t: Customers, customer: Option<Customer>, generated: Guid): (r: Call<Customer, Customer>)
    ensures customer.None? ==> r == Call(t, Threw(ArgumentNull("customer")))
    ensures customer.Some? && IsNullOrWhiteSpace(customer.value.location) ==>
              r == Call(t, Threw(Argument(LocationRequired, "customer")))
    ensures r.outcome.Returned? <==>
              && customer.Some?
              && !IsNullOrWhiteSpace(customer.value.location)
              && KeyOnAdd(customer.value.id, generated) !in t
    ensures customer.Some? && !IsNullOrWhiteSpace(customer.value.location) && KeyOnAdd(customer.value.id, generated) in t ==>
              r == Call(t, Threw(DbUpdate))
    ensures r.outcome.Returned? ==> r.outcome.value.id == KeyOnAdd(customer.value.id, generated)
    ensures r.outcome.Returned? ==>
              var row := r.outcome.value;
              && row.location == customer.value.location
              && (customer.value.id != EmptyGuid ==> row == customer.value)
              && row.id !in t
              && r.next.Keys == t.Keys + {row.id}
              && SameOutside(t, r.next, row.id)
              && GetCustomerById(r.next, row.id) == Some(row)
    ensures r.outcome.Threw? ==> r.next == t
    ensures Keyed(t) ==> Keyed(r.next)
  {
    if customer.None? then Call(t, Threw(ArgumentNull("customer")))
    else if IsNullOrWhiteSpace(customer.value.location) then
      Call(t, Threw(Argument(LocationRequired, "customer")))
    else
      var row := customer.value.(id := KeyOnAdd(customer.value.id, generated));
      match Add(t, row.id, row)
      case Saved(next) => Call(next, Returned(row))
      case Failed(e) => Call(t, Threw(e))
  }

  /** `UpdateCustomerAsync`: a null check and the id check, then a full-record
      replace. Location is not validated here; the store's NOT NULL column
      refuses a null one, and that failure is not caught. A concurrency failure
      is re-checked: an absent row gives `false`, a present one rethrows. */
  function UpdateCustomer(t: Customers, id: Guid, customer: Option<Customer>, conflict: bool): (r: Call<Customer, bool>)
    ensures customer.None? ==> r == Call(t, Threw(ArgumentNull("customer")))
    ensures customer.Some? && id != customer.value.id ==> r == Call(t, Returned(false))
    ensures r.outcome == Returned(true) <==>
              customer.Some? && id == customer.value.id && customer.value.location.Some? && id in t && !conflict
    ensures r.outcome == Returned(true) ==> r.next == t[id := customer.value]
    ensures r.outcome != Returned(true) ==> r.next == t
    ensures customer.Some? && id == customer.value.id && id in t && !conflict && customer.value.location.None? ==>
              r.outcome == Threw(DbUpdate)
    ensures Keyed(t) && customer.Some? && id == customer.value.id ==>
              (r.outcome == Threw(DbUpdateConcurrency) <==> id in t && conflict)
    ensures Keyed(t) && customer.Some? && id == customer.value.id && id !in t ==> r.outcome == Returned(false)
    ensures Keyed(t) ==> Keyed(r.next)
  {
    if customer.None? then Call(t, Threw(ArgumentNull("customer")))
    else if id != customer.value.id then Call(t, Returned(false))
    else
      match SaveModified(t, id, customer.value, conflict, customer.value.location.Some?)
      case Saved(next) => Call(next, Returned(true))
      case Failed(DbUpdateConcurrency) =>
        if !CustomerExists(t, id) then Call(t, Returned(false))
        else Call(t, Threw(DbUpdateConcurrency))
      case Failed(e) => Call(t, Threw(e))
  }

  /** `DeleteCustomerAsync`: removes the row if there is one and says whether it did. */
  function DeleteCustomer(t: Customers, id: Guid): (r: Call<Customer, bool>)
    ensures r.outcome == Returned(id in t)
    ensures r.next.Keys == t.Keys - {id} && SameOutside(t, r.next, id)
    ensures Keyed(t) ==> Keyed(r.next) && !CustomerExists(r.next, id)
  {
    match GetCustomerById(t, id)
    case None => Call(t, Returned(false))
    case Some(_) => Call(Remove(t, id), Returned(true))
  }

  /** Location is validated on create only: a customer with a blank Location is
      refused by create, yet an update of an existing row writes an empty or
      all-white-space Location as given. Only a null one is stopped, by the
      store's NOT NULL column, and then the update throws. */
  lemma LocationCheckedOnlyOnCreate(t: Customers, c: Customer, generated: Guid)
    requires Keyed(t) && c.id in t && IsNullOrWhiteSpace(c.location)
    ensures CreateCustomer(t, Some(c), generated) == Call(t, Threw(Argument(LocationRequired, "customer")))
    ensures c.location.Some? ==> UpdateCustomer(t, c.id, Some(c), false) == Call(t[c.id := c], Returned(true))
    ensures c.location.None? ==> UpdateCustomer(t, c.id, Some(c), false) == Call(t, Threw(DbUpdate))
  {
  }

  /** Deleting the row create just inserted gives back the table create started from. */
  lemma CreateThenDeleteRestores(t: Customers, c: Option<Customer>, generated: Guid)
    requires CreateCustomer(t, c, generated).outcome.Returned?
    ensures var created := CreateCustomer(t, c, generated);
            DeleteCustomer(created.next, created.outcome.value.id) == Call(t, Returned(true))
  {
  }

  /** After a successful update, a lookup of the id gives the new record field for field. */
  lemma UpdateThenGet(t: Customers, c: Customer, conflict: bool)
    requires UpdateCustomer(t, c.id, Some(c), conflict).outcome == Returned(true)
    ensures GetCustomerById(UpdateCustomer(t, c.id, Some(c), conflict).next, c.id) == Some(c)
  {
  }
}

=== FILE: customers_controller.dfy ===
/** `CustomersController`: each action first as the map from the service's
    answer to a response, then composed with `CustomerService`. */
module CustomersController {
  import opened Base
  import opened Models
  import opened Text
  import opened Exceptions
  import opened Persistence
  import opened Http
  import CustomerService

  type Customers = CustomerService.Customers

  /** `GetCustomers`: 200 with every customer. */
  method GetCustomers(t: Customers) returns (r: Response<Customer>)
    ensures r.OkList? && |r.rows| == |t|
    ensures forall k :: k in t ==> t[k] in r.rows
    ensures forall i :: 0 <= i < |r.rows| ==> r.rows[i] in t.Values
    ensures CustomerService.Keyed(t) ==> forall i, j :: 0 <= i < j < |r.rows| ==> r.rows[i].id != r.rows[j].id
  {
    var rows := CustomerService.GetAllCustomers(t);
    r := OkList(rows);
  }

  /** `GetCustomer` after the lookup: null is 404, a customer is 200. */
  function GetResult(found: Option<Customer>): (r: Response<Customer>)
    ensures found.None? ==> r == NotFound && r.StatusCode() == 404
    ensures found.Some? ==> r == Ok(found.value) && r.StatusCode() == 200
  {
    match found
    case None => NotFound
    case Some(c) => Ok(c)
  }

  /** `GetCustomer`. */
  function GetCustomer(t: Customers, id: Guid): (r: Response<Customer>)
    ensures r.Ok? || r.NotFound?
    ensures r.NotFound? <==> id !in t
    ensures r.Ok? ==> r.body == t[id]
    ensures r.Ok? && CustomerService.Keyed(t) ==> r.body.id == id
  {
    GetResult(CustomerService.GetCustomerById(t, id))
  }

  /** `PutCustomer` after the service call: `true` is 204, `false` is 404; a
      concurrency exception is 404 when the re-check finds no row and is
      rethrown otherwise; any other exception escapes. */
  function PutResult(updated: Outcome<bool>, stillExists: bool): (r: Response<Customer>)
    ensures r.NoContent? <==> updated == Returned(true)
    ensures r.NotFound? <==> updated == Returned(false) || (updated == Threw(DbUpdateConcurrency) && !stillExists)
    ensures r.Unhandled? <==> updated.Threw? && !r.NotFound?
    ensures r.Unhandled? ==> r.exception == updated.exception
  {
    match updated
    case Returned(true) => NoContent
    case Returned(false) => NotFound
    case Threw(DbUpdateConcurrency) => if !stillExists then NotFound else Unhandled(DbUpdateConcurrency)
    case Threw(e) => Unhandled(e)
  }

  /** `PutCustomer`: the path and body ids are compared before the service is
      called. A null body is dereferenced by that comparison. A null Location
      reaches the store, whose refusal escapes the action. */
  function PutCustomer(t: Customers, id: Guid, customer: Option<Customer>, conflict: bool): (r: Exchange<Customer>)
    ensures customer.None? ==> r == Exchange(t, Unhandled(NullReference))
    ensures customer.Some? && id != customer.value.id ==> r == Exchange(t, BadRequest(IdMismatch))
    ensures r.response.NoContent? <==>
              customer.Some? && id == customer.value.id && customer.value.location.Some? && id in t && !conflict
    ensures r.response.NoContent? ==> r.next == t[id := customer.value]
    ensures !r.response.NoContent? ==> r.next == t
    ensures r.response.NoContent? || r.response.NotFound? || r.response.BadRequest? || r.response.Unhandled?
    ensures r.response.BadRequest? <==> customer.Some? && id != customer.value.id
    ensures CustomerService.Keyed(t) ==>
              (r.response.NotFound? <==> customer.Some? && id == customer.value.id && id !in t)
    ensures CustomerService.Keyed(t) ==>
              (r.response.Unhandled? <==>
                 customer.None? || (id == customer.value.id && id in t && (conflict || customer.value.location.None?)))
    ensures customer.Some? && id == customer.value.id && id in t && !conflict && customer.value.location.None? ==>
              r == Exchange(t, Unhandled(DbUpdate))
    ensures CustomerService.Keyed(t) && customer.Some? && id == customer.value.id && id in t && conflict ==>
              r == Exchange(t, Unhandled(DbUpdateConcurrency))
  {
    if customer.None? then Exchange(t, Unhandled(NullReference))
    else if id != customer.value.id then Exchange(t, BadRequest(IdMismatch))
    else
      var u := CustomerService.UpdateCustomer(t, id, customer, conflict);
      Exchange(u.next, PutResult(u.outcome, CustomerService.CustomerExists(u.next, id)))
  }

  /** `PostCustomer` after the service call: the created customer is 201 routed
      to its own id; an `ArgumentException` (a null one included) is 400 with
      its message; anything else escapes. */
  function PostResult(created: Outcome<Customer>): (r: Response<Customer>)
    ensures r.Created? <==> created.Returned?
    ensures r.Created? ==> r.routeId == created.value.id && r.body == created.value
    ensures r.BadRequest? <==> created.Threw? && created.exception.IsArgumentException()
    ensures r.BadRequest? ==> r.message == created.exception.Message()
    ensures created.Threw? && !created.exception.IsArgumentException() ==> r == Unhandled(created.exception)
  {
    match created
    case Returned(c) => Created(c.id, c)
    case Threw(e) => if e.IsArgumentException() then BadRequest(e.Message()) else Unhandled(e)
  }

  /** `PostCustomer`. */
  function PostCustomer(t: Customers, customer: Option<Customer>, generated: Guid): (r: Exchange<Customer>)
    ensures customer.None? ==> r == Exchange(t, BadRequest(ArgumentNull("customer").Message()))
    ensures customer.Some? && IsNullOrWhiteSpace(customer.value.location) ==>
              r == Exchange(t, BadRequest(Argument(CustomerService.LocationRequired, "customer").Message()))
    ensures r.response.Created? <==>
              && customer.Some?
              && !IsNullOrWhiteSpace(customer.value.location)
              && KeyOnAdd(customer.value.id, generated) !in t
    ensures customer.Some? && !IsNullOrWhiteSpace(customer.value.location) && KeyOnAdd(customer.value.id, generated) in t ==>
              r == Exchange(t, Unhandled(DbUpdate))
    ensures r.response.Created? ==>
              && r.response.routeId == r.response.body.id
              && r.response.body.location == customer.value.location
              && GetCustomer(r.next, r.response.routeId) == Ok(r.response.body)
    ensures r.response.Created? ==>
              r.next.Keys == t.Keys + {r.response.routeId} && SameOutside(t, r.next, r.response.routeId)
    ensures r.response.Created? && customer.value.id != EmptyGuid ==> r.response.routeId == customer.value.id
    ensures r.response.Created? && customer.value.id == EmptyGuid ==> r.response.routeId == generated
    ensures r.response.Created? || r.response.BadRequest? || r.response == Unhandled(DbUpdate)
    ensures !r.response.Created? ==> r.next == t
  {
    var c := CustomerService.CreateCustomer(t, customer, generated);
    Exchange(c.next, PostResult(c.outcome))
  }

  /** `DeleteCustomer` after the service call: `false` is 404, `true` is 204. */
  function DeleteResult(deleted: Outcome<bool>): (r: Response<Customer>)
    ensures r.NoContent? <==> deleted == Returned(true)
    ensures r.NotFound? <==> deleted == Returned(false)
    ensures deleted.Threw? ==> r == Unhandled(deleted.exception)
  {
    match deleted
    case Returned(true) => NoContent
    case Returned(false) => NotFound
    case Threw(e) => Unhandled(e)
  }

  /** `DeleteCustomer`. */
  function DeleteCustomer(t: Customers, id: Guid): (r: Exchange<Customer>)
    ensures r.response.NoContent? || r.response.NotFound?
    ensures r.response.NoContent? <==> id in t
    ensures r.next.Keys == t.Keys - {id} && SameOutside(t, r.next, id)
    ensures GetCustomer(r.next, id) == NotFound
  {
    var d := CustomerService.DeleteCustomer(t, id);
    Exchange(d.next, DeleteResult(d.outcome))
  }

  /** Within one sequential request the service rethrows a concurrency failure
      only when its own re-check found the row, so the controller's re-check
      finds it too and rethrows: its 404 branch needs a concurrent delete. */
  lemma ConcurrencyCatchRethrows(t: Customers, id: Guid, c: Customer, conflict: bool)
    requires id == c.id
    requires CustomerService.UpdateCustomer(t, id, Some(c), conflict).outcome == Threw(DbUpdateConcurrency)
    ensures PutCustomer(t, id, Some(c), conflict).response == Unhandled(DbUpdateConcurrency)
  {
  }
}

=== FILE: exceptions.dfy ===
/** What a service or controller call can end in: a returned value or one of
    the exceptions the modelled code throws, catches or lets escape. */
module Exceptions {
  datatype Exception =
    /** `ArgumentNullException(paramName)`. */
    | ArgumentNull(paramName: string)
    /** `ArgumentException(message, paramName)`; `rule` is the message text. */
    | Argument(rule: string, paramName: string)
    /** `DbUpdateConcurrencyException`: a save expected to change a row changed none. */
    | DbUpdateConcurrency
    /** The store refused the write: a used key on insert, or a NULL in a NOT NULL column. */
    | DbUpdate
    /** `NullReferenceException`: a member read through a null reference. */
    | NullReference
  {
    /** `catch (ArgumentException)` also catches the subclass `ArgumentNullException`. */
    predicate IsArgumentException() {
      ArgumentNull? || Argument?
    }

    /** The `Message` property of an argument exception: the .NET runtime appends
        the parameter name to the text given to the constructor. */
    function Message(): (r: string)
      requires IsArgumentException()
      ensures Argument? ==> rule <= r
      ensures ArgumentNull? ==> "Value cannot be null." <= r
      ensures |r| >= |paramName| + 2 && r[|r| - |paramName| - 2 .. |r| - 2] == paramName
    {
      var suffix := " (Parameter '" + paramName + "')";
      match this
      case Argument(rule, _) => rule + suffix
      case ArgumentNull(_) => "Value cannot be null." + suffix
    }
  }

  /** How a call ended: it returned a value or it threw. */
  datatype Outcome<+R> = Returned(value: R) | Threw(exception: Exception)
}

=== FILE: http.dfy ===
/** The action results the controllers return. */
module Http {
  import opened Base
  import opened Exceptions
  import opened Persistence

  datatype Response<T> =
    /** `Ok(entity)`: 200 with one entity. */
    | Ok(body: T)
    /** `Ok(list)`: 200 with every entity. */
    | OkList(rows: seq<T>)
    /** `CreatedAtAction("Get…", new { id }, entity)`: 201 with the entity and a
        Location header routed to the GET-by-id action for `routeId`. */
    | Created(routeId: Guid, body: T)
    /** `NoContent()`: 204. */
    | NoContent
    /** `BadRequest(message)`: 400 with a text body. */
    | BadRequest(message: string)
    /** `NotFound()`: 404. */
    | NotFound
    /** The exception escapes the action (a `throw;` or an uncaught exception). */
    | Unhandled(exception: Exception)
  {
    /** The HTTP status; an escaped exception becomes the host's 500. */
    function StatusCode(): int {
      match this
      case Ok(_) => 200
      case OkList(_) => 200
      case Created(_, _) => 201
      case NoContent => 204
      case BadRequest(_) => 400
      case NotFound => 404
      case Unhandled(_) => 500
    }
  }

  /** The body of the 400 a PUT returns when the path and body ids differ. */
  const IdMismatch := "ID mismatch"

  /** One request: the table it leaves behind and the response it produced. */
  datatype Exchange<T> = Exchange(next: Table<T>, response: Response<T>)
}

=== FILE: models.dfy ===
/** The three entity classes, without their navigation properties
    (`Customer.Orders`, `Order.Customer`, ...). The services never read those,
    but adding a customer or supplier also inserts the orders reachable through
    them; a record here carries only its own columns. */
module Models {
  import opened Base

  /** A buyer of grain. `location` is `None` when the C# string is null. */
  datatype Customer = Customer(id: Guid, location: Option<string>)

  /** A grain supplier; the same shape as a customer. */
  datatype Supplier = Supplier(id: Guid, location: Option<string>)

  /** A grain order placed by a customer with a supplier. The delivery cost is
      a C# `decimal`, an exact value, so it is modelled as a `real`. */
  datatype Order = Order(
    id: Guid,
    orderDate: TimeSpan,
    purchaseOrder: Guid,
    customerId: Guid,
    supplierId: Guid,
    orderReqAmtTon: int32,
    suppliedAmtTon: int32,
    costOfDelivery: real)
}

=== FILE: order_service.dfy ===
/** `OrderService`: the six operations over the GrainOrders table, with the
    three numeric business rules checked on create and on update. */
module OrderService {
  import opened Base
  import opened Models
  import opened Exceptions
  import opened Persistence

  type Orders = Table<Order>

  /** The business rules on an order, listed in the order the service checks them. */
  datatype Rule = RequestAmountPositive | SuppliedAmountNotNegative | CostNotNegative {
    predicate Holds(o: Order) {
      match this
      case RequestAmountPositive => o.orderReqAmtTon > 0
      case SuppliedAmountNotNegative => o.suppliedAmtTon >= 0
      case CostNotNegative => o.costOfDelivery >= 0.0
    }

    /** The text of the `ArgumentException` that reports the rule broken. */
    function Message(): string {
      match this
      case RequestAmountPositive => "Order request amount must be greater than zero"
      case SuppliedAmountNotNegative => "Supplied amount cannot be negative"
      case CostNotNegative => "Cost of delivery cannot be negative"
    }
  }

  const Rules: seq<Rule> := [RequestAmountPositive, SuppliedAmountNotNegative, CostNotNegative]

  /** An order every rule accepts. */
  predicate ValidOrder(o: Order) {
    forall j :: 0 <= j < |Rules| ==> Rules[j].Holds(o)
  }

  /** Every stored order is valid: what create and update keep true. */
  ghost predicate AllValid(t: Orders) {
    forall k :: k in t ==> ValidOrder(t[k])
  }

  /** Every row is stored under its own `Id`, as EF Core's key mapping keeps it. */
  ghost predicate Keyed(t: Orders) {
    forall k :: k in t ==> t[k].id == k
  }

  /** The position in `rules[from..]` of the first rule `o` breaks, if any. */
  function FirstBroken(rules: seq<Rule>, o: Order, from: nat): (r: Option<nat>)
    requires from <= |rules|
    ensures r.None? <==> forall j :: from <= j < |rules| ==> rules[j].Holds(o)
    ensures r.Some? ==>
              && from <= r.value < |rules|
              && !rules[r.value].Holds(o)
              && forall j :: from <= j < r.value ==> rules[j].Holds(o)
    decreases |rules| - from
  {
    if from == |rules| then None
    else if !rules[from].Holds(o) then Some(from)
    else FirstBroken(rules, o, from + 1)
  }

  /** The service's validation block: the checks on the requested amount, the
      supplied amount and the cost, in that order, each throwing at once. */
  function Validate(o: Order): (r: Option<Exception>)
    ensures r.None? <==> ValidOrder(o)
    ensures r.Some? ==>
              exists i :: 0 <= i < |Rules| && FirstBroken(Rules, o, 0) == Some(i)
                          && r.value == Argument(Rules[i].Message(), "order")
  {
    if o.orderReqAmtTon <= 0 then
      assert FirstBroken(Rules, o, 0) == Some(0);
      Some(Argument("Order request amount must be greater than zero", "order"))
    else if o.suppliedAmtTon < 0 then
      assert FirstBroken(Rules, o, 0) == Some(1);
      Some(Argument("Supplied amount cannot be negative", "order"))
    else if o.costOfDelivery < 0.0 then
      assert FirstBroken(Rules, o, 0) == Some(2);
      Some(Argument("Cost of delivery cannot be negative", "order"))
    else None
  }

  /** `GetAllOrdersAsync`. */
  method GetAllOrders(t: Orders) returns (rows: seq<Order>)
    ensures |rows| == |t|
    ensures forall k :: k in t ==> t[k] in rows
    ensures forall i :: 0 <= i < |rows| ==> rows[i] in t.Values
    ensures Keyed(t) ==> forall i, j :: 0 <= i < j < |rows| ==> rows[i].id != rows[j].id
  {
    ghost var keys;
    keys, rows := ToList(t);
    forall k | k in t
      ensures t[k] in rows
    {
      var i :| 0 <= i < |keys| && keys[i] == k;
      assert rows[i] == t[k];
    }
  }

  /** `GetOrderByIdAsync`: absent ids give null, never an exception. */
  function GetOrderById(t: Orders, id: Guid): (r: Option<Order>)
    ensures r.None? <==> id !in t
    ensures r.Some? ==> r.value == t[id]
    ensures r.Some? && Keyed(t) ==> r.value.id == id
  {
    Find(t, id)
  }

  /** `OrderExistsAsync`: whether some row carries this `Id`. */
  function OrderExists(t: Orders, id: Guid): (r: bool)
    ensures Keyed(t) ==> (r <==> id in t)
  {
    exists k | k in t :: t[k].id == id
  }

  /** `CreateOrderAsync`: a null check, the three rules, then the insert. The
      customer and supplier ids are not looked up. */
  function CreateOrder(t: Orders, order: Option<Order>, generated: Guid): (r: Call<Order, Order>)
    ensures order.None? ==> r == Call(t, Threw(ArgumentNull("order")))
    ensures order.Some? && !ValidOrder(order.value) ==> r == Call(t, Threw(Validate(order.value).value))
    ensures r.outcome.Returned? <==>
              order.Some? && ValidOrder(order.value) && KeyOnAdd(order.value.id, generated) !in t
    ensures order.Some? && ValidOrder(order.value) && KeyOnAdd(order.value.id, generated) in t ==>
              r == Call(t, Threw(DbUpdate))
    ensures r.outcome.Returned? ==> r.outcome.value.id == KeyOnAdd(order.value.id, generated)
    ensures r.outcome.Returned? ==>
              var row := r.outcome.value;
              && row == order.value.(id := row.id)
              && (order.value.id != EmptyGuid ==> row == order.value)
              && row.id !in t
              && r.next.Keys == t.Keys + {row.id}
              && SameOutside(t, r.next, row.id)
              && GetOrderById(r.next, row.id) == Some(row)
    ensures r.outcome.Threw? ==> r.next == t
    ensures Keyed(t) ==> Keyed(r.next)
    ensures AllValid(t) ==> AllValid(r.next)
  {
    if order.None? then Call(t, Threw(ArgumentNull("order")))
    else match Validate(order.value)
      case Some(e) => Call(t, Threw(e))
      case None =>
        var row := order.value.(id := KeyOnAdd(order.value.id, generated));
        match Add(t, row.id, row)
        case Saved(next) => Call(next, Returned(row))
        case Failed(e) => Call(t, Threw(e))
  }

  /** `UpdateOrderAsync`: a null check, then the id check (before any rule),
      then the three rules, then a full-record replace. A concurrency failure is
      re-checked: an absent row gives `false`, a present one rethrows. */
  function UpdateOrder(t: Orders, id: Guid, order: Option<Order>, conflict: bool): (r: Call<Order, bool>)
    ensures order.None? ==> r == Call(t, Threw(ArgumentNull("order")))
    ensures order.Some? && id != order.value.id ==> r == Call(t, Returned(false))
    ensures order.Some? && id == order.value.id && !ValidOrder(order.value) ==>
              r == Call(t, Threw(Validate(order.value).value))
    ensures r.outcome == Returned(true) <==>
              order.Some? && id == order.value.id && ValidOrder(order.value) && id in t && !conflict
    ensures r.outcome == Returned(true) ==> r.next == t[id := order.value]
    ensures r.outcome != Returned(true) ==> r.next == t
    ensures Keyed(t) && order.Some? && id == order.value.id && ValidOrder(order.value) ==>
              (r.outcome == Threw(DbUpdateConcurrency) <==> id in t && conflict)
    ensures Keyed(t) && order.Some? && id == order.value.id && ValidOrder(order.value) && id !in t ==>
              r.outcome == Returned(false)
    ensures Keyed(t) ==> Keyed(r.next)
    ensures AllValid(t) ==> AllValid(r.next)
  {
    if order.None? then Call(t, Threw(ArgumentNull("order")))
    else if id != order.value.id then Call(t, Returned(false))
    else match Validate(order.value)
      case Some(e) => Call(t, Threw(e))
      case None =>
        match SaveModified(t, id, order.value, conflict, true)
        case Saved(next) => Call(next, Returned(true))
        case Failed(DbUpdateConcurrency) =>
          if !OrderExists(t, id) then Call(t, Returned(false))
          else Call(t, Threw(DbUpdateConcurrency))
        case Failed(e) => Call(t, Threw(e))
  }

  /** `DeleteOrderAsync`: removes the row if there is one and says whether it did. */
  function DeleteOrder(t: Orders, id: Guid): (r: Call<Order, bool>)
    ensures r.outcome == Returned(id in t)
    ensures r.next.Keys == t.Keys - {id} && SameOutside(t, r.next, id)
    ensures Keyed(t) ==> Keyed(r.next) && !OrderExists(r.next, id)
    ensures AllValid(t) ==> AllValid(r.next)
  {
    match GetOrderById(t, id)
    case None => Call(t, Returned(false))
    case Some(_) => Call(Remove(t, id), Returned(true))
  }

  /** When several rules are broken, the one checked first is the one reported:
      requested amount, then supplied amount, then cost. */
  lemma EarliestRuleReported(o: Order)
    ensures o.orderReqAmtTon <= 0 ==>
              Validate(o) == Some(Argument("Order request amount must be greater than zero", "order"))
    ensures o.orderReqAmtTon > 0 && o.suppliedAmtTon < 0 ==>
              Validate(o) == Some(Argument("Supplied amount cannot be negative", "order"))
    ensures o.orderReqAmtTon > 0 && o.suppliedAmtTon >= 0 && o.costOfDelivery < 0.0 ==>
              Validate(o) == Some(Argument("Cost of delivery cannot be negative", "order"))
  {
  }

  /** The id check comes before the rules: a mismatched order is answered
      `false`, not with an exception, however invalid it is. */
  lemma MismatchBeforeValidation(t: Orders, id: Guid, o: Order, conflict: bool, generated: Guid)
    requires id != o.id && !ValidOrder(o)
    ensures UpdateOrder(t, id, Some(o), conflict) == Call(t, Returned(false))
    ensures CreateOrder(t, Some(o), generated).outcome == Threw(Validate(o).value)
  {
  }

  /** Deleting the row create just inserted gives back the table create started from. */
  lemma CreateThenDeleteRestores(t: Orders, o: Option<Order>, generated: Guid)
    requires CreateOrder(t, o, generated).outcome.Returned?
    ensures var created := CreateOrder(t, o, generated);
            DeleteOrder(created.next, created.outcome.value.id) == Call(t, Returned(true))
  {
  }

  /** After a successful update, a lookup of the id gives the new record field for field. */
  lemma UpdateThenGet(t: Orders, o: Order, conflict: bool)
    requires UpdateOrder(t, o.id, Some(o), conflict).outcome == Returned(true)
    ensures GetOrderById(UpdateOrder(t, o.id, Some(o), conflict).next, o.id) == Some(o)
  {
  }
}

=== FILE: orders_controller.dfy ===
/** `OrdersController`: each action first as the map from the service's
    answer to a response, then composed with `OrderService`. Unlike the other
    two controllers, PUT here also turns an `ArgumentException` into a 400. */
module OrdersController {
  import opened Base
  import opened Models
  import opened Exceptions
  import opened Persistence
  import opened Http
  import OrderService

  type Orders = OrderService.Orders

  /** `GetGrainOrders`: 200 with every order. */
  method GetGrainOrders(t: Orders) returns (r: Response<Order>)
    ensures r.OkList? && |r.rows| == |t|
    ensures forall k :: k in t ==> t[k] in r.rows
    ensures forall i :: 0 <= i < |r.rows| ==> r.rows[i] in t.Values
    ensures OrderService.Keyed(t) ==> forall i, j :: 0 <= i < j < |r.rows| ==> r.rows[i].id != r.rows[j].id
  {
    var rows := OrderService.GetAllOrders(t);
    r := OkList(rows);
  }

  /** `GetOrder` after the lookup: null is 404, an order is 200. */
  function GetResult(found: Option<Order>): (r: Response<Order>)
    ensures found.None? ==> r == NotFound && r.StatusCode() == 404
    ensures found.Some? ==> r == Ok(found.value) && r.StatusCode() == 200
  {
    match found
    case None => NotFound
    case Some(o) => Ok(o)
  }

  /** `GetOrder`. */
  function GetOrder(t: Orders, id: Guid): (r: Response<Order>)
    ensures r.Ok? || r.NotFound?
    ensures r.NotFound? <==> id !in t
    ensures r.Ok? ==> r.body == t[id]
    ensures r.Ok? && OrderService.Keyed(t) ==> r.body.id == id
  {
    GetResult(OrderService.GetOrderById(t, id))
  }

  /** `PutOrder` after the service call: `true` is 204, `false` is 404; an
      `ArgumentException` is 400 with its message; a concurrency exception is
      404 when the re-check finds no row and is rethrown otherwise. */
  function PutResult(updated: Outcome<bool>, stillExists: bool): (r: Response<Order>)
    ensures r.NoContent? <==> updated == Returned(true)
    ensures r.NotFound? <==> updated == Returned(false) || (updated == Threw(DbUpdateConcurrency) && !stillExists)
    ensures r.BadRequest? <==> updated.Threw? && updated.exception.IsArgumentException()
    ensures r.BadRequest? ==> r.message == updated.exception.Message()
    ensures r.Unhandled? <==> updated.Threw? && !r.NotFound? && !r.BadRequest?
    ensures r.Unhandled? ==> r.exception == updated.exception
  {
    match updated
    case Returned(true) => NoContent
    case Returned(false) => NotFound
    case Threw(e) =>
      if e.IsArgumentException() then BadRequest(e.Message())
      else if e == DbUpdateConcurrency && !stillExists then NotFound
      else Unhandled(e)
  }

  /** `PutOrder`: the path and body ids are compared before the service is
      called. A null body is dereferenced by that comparison. */
  function PutOrder(t: Orders, id: Guid, order: Option<Order>, conflict: bool): (r: Exchange<Order>)
    ensures order.None? ==> r == Exchange(t, Unhandled(NullReference))
    ensures order.Some? && id != order.value.id ==> r == Exchange(t, BadRequest(IdMismatch))
    ensures order.Some? && id == order.value.id && !OrderService.ValidOrder(order.value) ==>
              r == Exchange(t, BadRequest(OrderService.Validate(order.value).value.Message()))
    ensures r.response.NoContent? <==>
              order.Some? && id == order.value.id && OrderService.ValidOrder(order.value) && id in t && !conflict
    ensures r.response.NoContent? ==> r.next == t[id := order.value]
    ensures !r.response.NoContent? ==> r.next == t
    ensures r.response.NoContent? || r.response.NotFound? || r.response.BadRequest? || r.response.Unhandled?
    ensures r.response.BadRequest? <==>
              order.Some? && (id != order.value.id || !OrderService.ValidOrder(order.value))
    ensures OrderService.Keyed(t) ==>
              (r.response.NotFound? <==>
                 order.Some? && id == order.value.id && OrderService.ValidOrder(order.value) && id !in t)
    ensures OrderService.Keyed(t) ==>
              (r.response.Unhandled? <==>
                 order.None? || (id == order.value.id && OrderService.ValidOrder(order.value) && id in t && conflict))
    ensures OrderService.Keyed(t) && order.Some? && id == order.value.id &&
            OrderService.ValidOrder(order.value) && id in t && conflict ==>
              r == Exchange(t, Unhandled(DbUpdateConcurrency))
  {
    if order.None? then Exchange(t, Unhandled(NullReference))
    else if id != order.value.id then Exchange(t, BadRequest(IdMismatch))
    else
      var u := OrderService.UpdateOrder(t, id, order, conflict);
      Exchange(u.next, PutResult(u.outcome, OrderService.OrderExists(u.next, id)))
  }

  /** `PostOrder` after the service call: the created order is 201 routed to
      its own id; an `ArgumentException` (a null one included) is 400 with its
      message; anything else escapes. */
  function PostResult(created: Outcome<Order>): (r: Response<Order>)
    ensures r.Created? <==> created.Returned?
    ensures r.Created? ==> r.routeId == created.value.id && r.body == created.value
    ensures r.BadRequest? <==> created.Threw? && created.exception.IsArgumentException()
    ensures r.BadRequest? ==> r.message == created.exception.Message()
    ensures created.Threw? && !created.exception.IsArgumentException() ==> r == Unhandled(created.exception)
  {
    match created
    case Returned(o) => Created(o.id, o)
    case Threw(e) => if e.IsArgumentException() then BadRequest(e.Message()) else Unhandled(e)
  }

  /** `PostOrder`. */
  function PostOrder(t: Orders, order: Option<Order>, generated: Guid): (r: Exchange<Order>)
    ensures order.None? ==> r == Exchange(t, BadRequest(ArgumentNull("order").Message()))
    ensures order.Some? && !OrderService.ValidOrder(order.value) ==>
              r == Exchange(t, BadRequest(OrderService.Validate(order.value).value.Message()))
    ensures r.response.Created? <==>
              order.Some? && OrderService.ValidOrder(order.value) && KeyOnAdd(order.value.id, generated) !in t
    ensures order.Some? && OrderService.ValidOrder(order.value) && KeyOnAdd(order.value.id, generated) in t ==>
              r == Exchange(t, Unhandled(DbUpdate))
    ensures r.response.Created? ==>
              && r.response.routeId == r.response.body.id
              && r.response.body == order.value.(id := r.response.routeId)
              && GetOrder(r.next, r.response.routeId) == Ok(r.response.body)
    ensures r.response.Created? ==>
              r.next.Keys == t.Keys + {r.response.routeId} && SameOutside(t, r.next, r.response.routeId)
    ensures r.response.Created? && order.value.id != EmptyGuid ==> r.response.routeId == order.value.id
    ensures r.response.Created? && order.value.id == EmptyGuid ==> r.response.routeId == generated
    ensures r.response.Created? || r.response.BadRequest? || r.response == Unhandled(DbUpdate)
    ensures !r.response.Created? ==> r.next == t
  {
    var c := OrderService.CreateOrder(t, order, generated);
    Exchange(c.next, PostResult(c.outcome))
  }

  /** `DeleteOrder` after the service call: `false` is 404, `true` is 204. */
  function DeleteResult(deleted: Outcome<bool>): (r: Response<Order>)
    ensures r.NoContent? <==> deleted == Returned(true)
    ensures r.NotFound? <==> deleted == Returned(false)
    ensures deleted.Threw? ==> r == Unhandled(deleted.exception)
  {
    match deleted
    case Returned(true) => NoContent
    case Returned(false) => NotFound
    case Threw(e) => Unhandled(e)
  }

  /** `DeleteOrder`. */
  function DeleteOrder(t: Orders, id: Guid): (r: Exchange<Order>)
    ensures r.response.NoContent? || r.response.NotFound?
    ensures r.response.NoContent? <==> id in t
    ensures r.next.Keys == t.Keys - {id} && SameOutside(t, r.next, id)
    ensures GetOrder(r.next, id) == NotFound
  {
    var d := OrderService.DeleteOrder(t, id);
    Exchange(d.next, DeleteResult(d.outcome))
  }

  /** Within one sequential request the service rethrows a concurrency failure
      only when its own re-check found the row, so the controller's re-check
      finds it too and rethrows: its 404 branch needs a concurrent delete. */
  lemma ConcurrencyCatchRethrows(t: Orders, id: Guid, c: Order, conflict: bool)
    requires id == c.id
    requires OrderService.UpdateOrder(t, id, Some(c), conflict).outcome == Threw(DbUpdateConcurrency)
    ensures PutOrder(t, id, Some(c), conflict).response == Unhandled(DbUpdateConcurrency)
  {
  }
}

=== FILE: persistence.dfy ===
/** The unit of work over one table: the EF Core `DbSet` operations the
    services use, each followed by its `SaveChangesAsync`. A table maps a
    primary key to the row stored under it. */
module Persistence {
  import opened Base
  import opened Exceptions

  type Table<T> = map<Guid, T>

  /** The effect of one service call: the table it leaves behind and how it ended. */
  datatype Call<T, +R> = Call(next: Table<T>, outcome: Outcome<R>)

  /** Every row of `t` outside key `k` is also in `u`, unchanged, and `u` has no
      other key besides possibly `k`. */
  ghost predicate SameOutside<T>(t: Table<T>, u: Table<T>, k: Guid) {
    && t.Keys - {k} == u.Keys - {k}
    && forall j :: j in t && j != k ==> j in u && u[j] == t[j]
  }

  /** `FindAsync(id)`: the row stored under primary key `id`, or null. */
  function Find<T>(t: Table<T>, id: Guid): (r: Option<T>)
    ensures r.None? <==> id !in t
    ensures r.Some? ==> r.value == t[id]
  {
    if id in t then Some(t[id]) else None
  }

  /** The key EF Core stores a new row under: a `Guid` key left at `Guid.Empty`
      is filled from the key generator, any other key is kept. */
  function KeyOnAdd(id: Guid, generated: Guid): Guid {
    if id == EmptyGuid then generated else id
  }

  /** The result of `SaveChangesAsync`: the table it committed, or the
      exception it threw (nothing is committed then). */
  datatype Save<T> = Saved(next: Table<T>) | Failed(exception: Exception)

  /** `Add(row)` then save: inserts a new row under key `k`; a key already in use
      makes the store refuse the insert. */
  function Add<T>(t: Table<T>, k: Guid, row: T): (r: Save<T>)
    ensures r.Saved? <==> k !in t
    ensures r.Saved? ==> r.next.Keys == t.Keys + {k} && r.next[k] == row && SameOutside(t, r.next, k)
    ensures r.Failed? ==> r.exception == DbUpdate
  {
    if k in t then Failed(DbUpdate) else Saved(t[k := row])
  }

  /** `Entry(row).State = Modified` then save: overwrites every column of the row
      under key `k`. The generated UPDATE matches no row when `k` is absent, and
      `conflict` stands for a concurrent writer this sequential model does not
      see; either way the save throws `DbUpdateConcurrencyException`. When the
      UPDATE does match the row, `fitsColumns` says whether the new values meet
      the table's NOT NULL columns; the store refuses a row that does not. */
  function SaveModified<T>(t: Table<T>, k: Guid, row: T, conflict: bool, fitsColumns: bool): (r: Save<T>)
    ensures r.Saved? <==> k in t && !conflict && fitsColumns
    ensures r.Saved? ==> r.next.Keys == t.Keys && r.next[k] == row && SameOutside(t, r.next, k)
    ensures r.Failed? && (k !in t || conflict) ==> r.exception == DbUpdateConcurrency
    ensures r.Failed? && k in t && !conflict ==> r.exception == DbUpdate
  {
    if k !in t || conflict then Failed(DbUpdateConcurrency)
    else if !fitsColumns then Failed(DbUpdate)
    else Saved(t[k := row])
  }

  /** `Remove(row)` then save: deletes the row under key `k`. */
  function Remove<T>(t: Table<T>, k: Guid): (r: Table<T>)
    requires k in t
    ensures r.Keys == t.Keys - {k} && SameOutside(t, r, k)
    ensures |r| == |t| - 1
  {
    t - {k}
  }

  /** `ToListAsync()`: every row of the table exactly once, in no particular
      order. `keys` gives the key each listed row is stored under. */
  method ToList<T>(t: Table<T>) returns (keys: seq<Guid>, rows: seq<T>)
    ensures |keys| == |rows| == |t|
    ensures forall i, j :: 0 <= i < j < |keys| ==> keys[i] != keys[j]
    ensures forall i :: 0 <= i < |keys| ==> keys[i] in t && rows[i] == t[keys[i]]
    ensures forall k :: k in t ==> k in keys
  {
    keys, rows := [], [];
    var pending := t.Keys;
    while pending != {}
      invariant pending !! (set k | k in keys) && pending + (set k | k in keys) == t.Keys
      invariant |keys| == |rows| == |t| - |pending|
      invariant forall i, j :: 0 <= i < j < |keys| ==> keys[i] != keys[j]
      invariant forall i :: 0 <= i < |keys| ==> keys[i] in t && rows[i] == t[keys[i]]
      decreases |pending|
    {
      var k :| k in pending;
      keys, rows := keys + [k], rows + [t[k]];
      pending := pending - {k};
    }
  }
}

=== FILE: supplier_service.dfy ===
/** `SupplierService`: the six operations over the Suppliers table. */
module SupplierService {
  import opened Base
  import opened Models
  import opened Text
  import opened Exceptions
  import opened Persistence

  type Suppliers = Table<Supplier>

  const LocationRequired := "Location is required"

  /** Every row is stored under its own `Id`, as EF Core's key mapping keeps it. */
  ghost predicate Keyed(t: Suppliers) {
    forall k :: k in t ==> t[k].id == k
  }

  /** `GetAllSuppliersAsync`. */
  method GetAllSuppliers(t: Suppliers) returns (rows: seq<Supplier>)
    ensures |rows| == |t|
    ensures forall k :: k in t ==> t[k] in rows
    ensures forall i :: 0 <= i < |rows| ==> rows[i] in t.Values
    ensures Keyed(t) ==> forall i, j :: 0 <= i < j < |rows| ==> rows[i].id != rows[j].id
  {
    ghost var keys;
    keys, rows := ToList(t);
    forall k | k in t
      ensures t[k] in rows
    {
      var i :| 0 <= i < |keys| && keys[i] == k;
      assert rows[i] == t[k];
    }
  }

  /** `GetSupplierByIdAsync`: absent ids give null, never an exception. */
  function GetSupplierById(t: Suppliers, id: Guid): (r: Option<Supplier>)
    ensures r.None? <==> id !in t
    ensures r.Some? ==> r.value == t[id]
    ensures r.Some? && Keyed(t) ==> r.value.id == id
  {
    Find(t, id)
  }

  /** `SupplierExistsAsync`: whether some row carries this `Id`. */
  function SupplierExists(t: Suppliers, id: Guid): (r: bool)
    ensures Keyed(t) ==> (r <==> id in t)
  {
    exists k | k in t :: t[k].id == id
  }

  /** `CreateSupplierAsync`: a null check, the Location rule, then the insert. */
  function CreateSupplier(t: Suppliers, supplier: Option<Supplier>, generated: Guid): (r: Call<Supplier, Supplier>)
    ensures supplier.None? ==> r == Call(t, Threw(ArgumentNull("supplier")))
    ensures supplier.Some? && IsNullOrWhiteSpace(supplier.value.location) ==>
              r == Call(t, Threw(Argument(LocationRequired, "supplier")))
    ensures r.outcome.Returned? <==>
              && supplier.Some?
              && !IsNullOrWhiteSpace(supplier.value.location)
              && KeyOnAdd(supplier.value.id, generated) !in t
    ensures supplier.Some? && !IsNullOrWhiteSpace(supplier.value.location) && KeyOnAdd(supplier.value.id, generated) in t ==>
              r == Call(t, Threw(DbUpdate))
    ensures r.outcome.Returned? ==> r.outcome.value.id == KeyOnAdd(supplier.value.id, generated)
    ensures r.outcome.Returned? ==>
              var row := r.outcome.value;
              && row.location == supplier.value.location
              && (supplier.value.id != EmptyGuid ==> row == supplier.value)
              && row.id !in t
              && r.next.Keys == t.Keys + {row.id}
              && SameOutside(t, r.next, row.id)
              && GetSupplierById(r.next, row.id) == Some(row)
    ensures r.outcome.Threw? ==> r.next == t
    ensures Keyed(t) ==> Keyed(r.next)
  {
    if supplier.None? then Call(t, Threw(ArgumentNull("supplier")))
    else if IsNullOrWhiteSpace(supplier.value.location) then
      Call(t, Threw(Argument(LocationRequired, "supplier")))
    else
      var row := supplier.value.(id := KeyOnAdd(supplier.value.id, generated));
      match Add(t, row.id, row)
      case Saved(next) => Call(next, Returned(row))
      case Failed(e) => Call(t, Threw(e))
  }

  /** `UpdateSupplierAsync`: a null check and the id check, then a full-record
      replace. Location is not validated here; the store's NOT NULL column
      refuses a null one, and that failure is not caught. A concurrency failure
      is re-checked: an absent row gives `false`, a present one rethrows. */
  function UpdateSupplier(t: Suppliers, id: Guid, supplier: Option<Supplier>, conflict: bool): (r: Call<Supplier, bool>)
    ensures supplier.None? ==> r == Call(t, Threw(ArgumentNull("supplier")))
    ensures supplier.Some? && id != supplier.value.id ==> r == Call(t, Returned(false))
    ensures r.outcome == Returned(true) <==>
              supplier.Some? && id == supplier.value.id && supplier.value.location.Some? && id in t && !conflict
    ensures r.outcome == Returned(true) ==> r.next == t[id := supplier.value]
    ensures r.outcome != Returned(true) ==> r.next == t
    ensures supplier.Some? && id == supplier.value.id && id in t && !conflict && supplier.value.location.None? ==>
              r.outcome == Threw(DbUpdate)
    ensures Keyed(t) && supplier.Some? && id == supplier.value.id ==>
              (r.outcome == Threw(DbUpdateConcurrency) <==> id in t && conflict)
    ensures Keyed(t) && supplier.Some? && id == supplier.value.id && id !in t ==> r.outcome == Returned(false)
    ensures Keyed(t) ==> Keyed(r.next)
  {
    if supplier.None? then Call(t, Threw(ArgumentNull("supplier")))
    else if id != supplier.value.id then Call(t, Returned(false))
    else
      match SaveModified(t, id, supplier.value, conflict, supplier.value.location.Some?)
      case Saved(next) => Call(next, Returned(true))
      case Failed(DbUpdateConcurrency) =>
        if !SupplierExists(t, id) then Call(t, Returned(false))
        else Call(t, Threw(DbUpdateConcurrency))
      case Failed(e) => Call(t, Threw(e))
  }

  /** `DeleteSupplierAsync`: removes the row if there is one and says whether it did. */
  function DeleteSupplier(t: Suppliers, id: Guid): (r: Call<Supplier, bool>)
    ensures r.outcome == Returned(id in t)
    ensures r.next.Keys == t.Keys - {id} && SameOutside(t, r.next, id)
    ensures Keyed(t) ==> Keyed(r.next) && !SupplierExists(r.next, id)
  {
    match GetSupplierById(t, id)
    case None => Call(t, Returned(false))
    case Some(_) => Call(Remove(t, id), Returned(true))
  }

  /** Location is validated on create only: a supplier with a blank Location is
      refused by create, yet an update of an existing row writes an empty or
      all-white-space Location as given. Only a null one is stopped, by the
      store's NOT NULL column, and then the update throws. */
  lemma LocationCheckedOnlyOnCreate(t: Suppliers, c: Supplier, generated: Guid)
    requires Keyed(t) && c.id in t && IsNullOrWhiteSpace(c.location)
    ensures CreateSupplier(t, Some(c), generated) == Call(t, Threw(Argument(LocationRequired, "supplier")))
    ensures c.location.Some? ==> UpdateSupplier(t, c.id, Some(c), false) == Call(t[c.id := c], Returned(true))
    ensures c.location.None? ==> UpdateSupplier(t, c.id, Some(c), false) == Call(t, Threw(DbUpdate))
  {
  }

  /** Deleting the row create just inserted gives back the table create started from. */
  lemma CreateThenDeleteRestores(t: Suppliers, c: Option<Supplier>, generated: Guid)
    requires CreateSupplier(t, c, generated).outcome.Returned?
    ensures var created := CreateSupplier(t, c, generated);
            DeleteSupplier(created.next, created.outcome.value.id) == Call(t, Returned(true))
  {
  }

  /** After a successful update, a lookup of the id gives the new record field for field. */
  lemma UpdateThenGet(t: Suppliers, c: Supplier, conflict: bool)
    requires UpdateSupplier(t, c.id, Some(c), conflict).outcome == Returned(true)
    ensures GetSupplierById(UpdateSupplier(t, c.id, Some(c), conflict).next, c.id) == Some(c)
  {
  }
}

=== FILE: suppliers_controller.dfy ===
/** `SuppliersController`: each action first as the map from the service's
    answer to a response, then composed with `SupplierService`. */
module SuppliersController {
  import opened Base
  import opened Models
  import opened Text
  import opened Exceptions
  import opened Persistence
  import opened Http
  import SupplierService

  type Suppliers = SupplierService.Suppliers

  /** `GetSuppliers`: 200 with every supplier. */
  method GetSuppliers(t: Suppliers) returns (r: Response<Supplier>)
    ensures r.OkList? && |r.rows| == |t|
    ensures forall k :: k in t ==> t[k] in r.rows
    ensures forall i :: 0 <= i < |r.rows| ==> r.rows[i] in t.Values
    ensures SupplierService.Keyed(t) ==> forall i, j :: 0 <= i < j < |r.rows| ==> r.rows[i].id != r.rows[j].id
  {
    var rows := SupplierService.GetAllSuppliers(t);
    r := OkList(rows);
  }

  /** `GetSupplier` after the lookup: null is 404, a supplier is 200. */
  function GetResult(found: Option<Supplier>): (r: Response<Supplier>)
    ensures found.None? ==> r == NotFound && r.StatusCode() == 404
    ensures found.Some? ==> r == Ok(found.value) && r.StatusCode() == 200
  {
    match found
    case None => NotFound
    case Some(c) => Ok(c)
  }

  /** `GetSupplier`. */
  function GetSupplier(t: Suppliers, id: Guid): (r: Response<Supplier>)
    ensures r.Ok? || r.NotFound?
    ensures r.NotFound? <==> id !in t
    ensures r.Ok? ==> r.body == t[id]
    ensures r.Ok? && SupplierService.Keyed(t) ==> r.body.id == id
  {
    GetResult(SupplierService.GetSupplierById(t, id))
  }

  /** `PutSupplier` after the service call: `true` is 204, `false` is 404; a
      concurrency exception is 404 when the re-check finds no row and is
      rethrown otherwise; any other exception escapes. */
  function PutResult(updated: Outcome<bool>, stillExists: bool): (r: Response<Supplier>)
    ensures r.NoContent? <==> updated == Returned(true)
    ensures r.NotFound? <==> updated == Returned(false) || (updated == Threw(DbUpdateConcurrency) && !stillExists)
    ensures r.Unhandled? <==> updated.Threw? && !r.NotFound?
    ensures r.Unhandled? ==> r.exception == updated.exception
  {
    match updated
    case Returned(true) => NoContent
    case Returned(false) => NotFound
    case Threw(DbUpdateConcurrency) => if !stillExists then NotFound else Unhandled(DbUpdateConcurrency)
    case Threw(e) => Unhandled(e)
  }

  /** `PutSupplier`: the path and body ids are compared before the service is
      called. A null body is dereferenced by that comparison. A null Location
      reaches the store, whose refusal escapes the action. */
  function PutSupplier(t: Suppliers, id: Guid, supplier: Option<Supplier>, conflict: bool): (r: Exchange<Supplier>)
    ensures supplier.None? ==> r == Exchange(t, Unhandled(NullReference))
    ensures supplier.Some? && id != supplier.value.id ==> r == Exchange(t, BadRequest(IdMismatch))
    ensures r.response.NoContent? <==>
              supplier.Some? && id == supplier.value.id && supplier.value.location.Some? && id in t && !conflict
    ensures r.response.NoContent? ==> r.next == t[id := supplier.value]
    ensures !r.response.NoContent? ==> r.next == t
    ensures r.response.NoContent? || r.response.NotFound? || r.response.BadRequest? || r.response.Unhandled?
    ensures r.response.BadRequest? <==> supplier.Some? && id != supplier.value.id
    ensures SupplierService.Keyed(t) ==>
              (r.response.NotFound? <==> supplier.Some? && id == supplier.value.id && id !in t)
    ensures SupplierService.Keyed(t) ==>
              (r.response.Unhandled? <==>
                 supplier.None? || (id == supplier.value.id && id in t && (conflict || supplier.value.location.None?)))
    ensures supplier.Some? && id == supplier.value.id && id in t && !conflict && supplier.value.location.None? ==>
              r == Exchange(t, Unhandled(DbUpdate))
    ensures SupplierService.Keyed(t) && supplier.Some? && id == supplier.value.id && id in t && conflict ==>
              r == Exchange(t, Unhandled(DbUpdateConcurrency))
  {
    if supplier.None? then Exchange(t, Unhandled(NullReference))
    else if id != supplier.value.id then Exchange(t, BadRequest(IdMismatch))
    else
      var u := SupplierService.UpdateSupplier(t, id, supplier, conflict);
      Exchange(u.next, PutResult(u.outcome, SupplierService.SupplierExists(u.next, id)))
  }

  /** `PostSupplier` after the service call: the created supplier is 201 routed
      to its own id; an `ArgumentException` (a null one included) is 400 with
      its message; anything else escapes. */
  function PostResult(created: Outcome<Supplier>): (r: Response<Supplier>)
    ensures r.Created? <==> created.Returned?
    ensures r.Created? ==> r.routeId == created.value.id && r.body == created.value
    ensures r.BadRequest? <==> created.Threw? && created.exception.IsArgumentException()
    ensures r.BadRequest? ==> r.message == created.exception.Message()
    ensures created.Threw? && !created.exception.IsArgumentException() ==> r == Unhandled(created.exception)
  {
    match created
    case Returned(c) => Created(c.id, c)
    case Threw(e) => if e.IsArgumentException() then BadRequest(e.Message()) else Unhandled(e)
  }

  /** `PostSupplier`. */
  function PostSupplier(t: Suppliers, supplier: Option<Supplier>, generated: Guid): (r: Exchange<Supplier>)
    ensures supplier.None? ==> r == Exchange(t, BadRequest(ArgumentNull("supplier").Message()))
    ensures supplier.Some? && IsNullOrWhiteSpace(supplier.value.location) ==>
              r == Exchange(t, BadRequest(Argument(SupplierService.LocationRequired, "supplier").Message()))
    ensures r.response.Created? <==>
              && supplier.Some?
              && !IsNullOrWhiteSpace(supplier.value.location)
              && KeyOnAdd(supplier.value.id, generated) !in t
    ensures supplier.Some? && !IsNullOrWhiteSpace(supplier.value.location) && KeyOnAdd(supplier.value.id, generated) in t ==>
              r == Exchange(t, Unhandled(DbUpdate))
    ensures r.response.Created? ==>
              && r.response.routeId == r.response.body.id
              && r.response.body.location == supplier.value.location
              && GetSupplier(r.next, r.response.routeId) == Ok(r.response.body)
    ensures r.response.Created? ==>
              r.next.Keys == t.Keys + {r.response.routeId} && SameOutside(t, r.next, r.response.routeId)
    ensures r.response.Created? && supplier.value.id != EmptyGuid ==> r.response.routeId == supplier.value.id
    ensures r.response.Created? && supplier.value.id == EmptyGuid ==> r.response.routeId == generated
    ensures r.response.Created? || r.response.BadRequest? || r.response == Unhandled(DbUpdate)
    ensures !r.response.Created? ==> r.next == t
  {
    var c := SupplierService.CreateSupplier(t, supplier, generated);
    Exchange(c.next, PostResult(c.outcome))
  }

  /** `DeleteSupplier` after the service call: `false` is 404, `true` is 204. */
  function DeleteResult(deleted: Outcome<bool>): (r: Response<Supplier>)
    ensures r.NoContent? <==> deleted == Returned(true)
    ensures r.NotFound? <==> deleted == Returned(false)
    ensures deleted.Threw? ==> r == Unhandled(deleted.exception)
  {
    match deleted
    case Returned(true) => NoContent
    case Returned(false) => NotFound
    case Threw(e) => Unhandled(e)
  }

  /** `DeleteSupplier`. */
  function DeleteSupplier(t: Suppliers, id: Guid): (r: Exchange<Supplier>)
    ensures r.response.NoContent? || r.response.NotFound?
    ensures r.response.NoContent? <==> id in t
    ensures r.next.Keys == t.Keys - {id} && SameOutside(t, r.next, id)
    ensures GetSupplier(r.next, id) == NotFound
  {
    var d := SupplierService.DeleteSupplier(t, id);
    Exchange(d.next, DeleteResult(d.outcome))
  }

  /** Within one sequential request the service rethrows a concurrency failure
      only when its own re-check found the row, so the controller's re-check
      finds it too and rethrows: its 404 branch needs a concurrent delete. */
  lemma ConcurrencyCatchRethrows(t: Suppliers, id: Guid, c: Supplier, conflict: bool)
    requires id == c.id
    requires SupplierService.UpdateSupplier(t, id, Some(c), conflict).outcome == Threw(DbUpdateConcurrency)
    ensures PutSupplier(t, id, Some(c), conflict).response == Unhandled(DbUpdateConcurrency)
  {
  }
}

=== FILE: text.dfy ===
/** `string.IsNullOrWhiteSpace` over Unicode scalar values, and a `Trim` it is
    compared with. */
module Text {
  import opened Base

  /** `char.IsWhiteSpace`: the Unicode space, line and paragraph separators
      (categories Zs, Zl, Zp) and the control characters U+0009..U+000D and U+0085. */
  predicate IsWhiteSpace(ch: char) {
    || ch == ' '
    || ('\t' <= ch <= '\r')
    || ch == '\U{85}'
    || ch == '\U{A0}'
    || ch == '\U{1680}'
    || ('\U{2000}' <= ch <= '\U{200A}')
    || ch == '\U{2028}'
    || ch == '\U{2029}'
    || ch == '\U{202F}'
    || ch == '\U{205F}'
    || ch == '\U{3000}'
  }

  /** True when every character of `s` is white space (so also for ""), scanning
      from the front and stopping at the first other character. */
  function AllWhiteSpace(s: string): (r: bool)
    ensures r <==> forall i :: 0 <= i < |s| ==> IsWhiteSpace(s[i])
  {
    if |s| == 0 then true
    else if !IsWhiteSpace(s[0]) then false
    else AllWhiteSpace(s[1..])
  }

  /** `string.IsNullOrWhiteSpace`: null, empty, or only white space. */
  function IsNullOrWhiteSpace(s: Option<string>): (r: bool)
    ensures s.None? ==> r
    ensures s == Some("") ==> r
    ensures s.Some? ==> (r <==> forall i :: 0 <= i < |s.value| ==> IsWhiteSpace(s.value[i]))
  {
    match s
    case None => true
    case Some(v) => AllWhiteSpace(v)
  }

  /** Drops the leading white space, as `string.TrimStart()` does. The services
      never trim; `TrimStart`, `TrimEnd` and `Trim` are defined independently of
      `IsNullOrWhiteSpace` so that `TrimEmptyIffNullOrWhiteSpace` can relate the two. */
  function TrimStart(s: string): (r: string)
    ensures |r| <= |s| && r == s[|s| - |r|..]
    ensures |r| > 0 ==> !IsWhiteSpace(r[0])
    ensures forall i :: 0 <= i < |s| - |r| ==> IsWhiteSpace(s[i])
  {
    if |s| > 0 && IsWhiteSpace(s[0]) then TrimStart(s[1..]) else s
  }

  /** Drops the trailing white space, as `string.TrimEnd()` does. */
  function TrimEnd(s: string): (r: string)
    ensures |r| <= |s| && r == s[..|r|]
    ensures |r| > 0 ==> !IsWhiteSpace(r[|r| - 1])
    ensures forall i :: |r| <= i < |s| ==> IsWhiteSpace(s[i])
  {
    if |s| > 0 && IsWhiteSpace(s[|s| - 1]) then TrimEnd(s[..|s| - 1]) else s
  }

  /** Drops white space at both ends, as `string.Trim()` does. */
  function Trim(s: string): string {
    TrimEnd(TrimStart(s))
  }

  /** `Trim(s) == ""` exactly when `IsNullOrWhiteSpace` calls `s` blank. */
  lemma TrimEmptyIffNullOrWhiteSpace(s: string)
    ensures Trim(s) == "" <==> IsNullOrWhiteSpace(Some(s))
  {
  }
}
